=== FILE: README.md ===
# MediStar order rules in Dafny

MediStar is a hospital prescription-to-pharmacy web application. Doctors send
prescriptions to the pharmacy as orders. Pharmacy staff accept (`Preparing`),
finish (`Ready`) or reject orders and restock the medicine inventory. All of it
lives in one React component, `App` in App.tsx, that talks to a hosted database
and to SMS and voice-call services.

This project lifts the decision rules out of that component and states them as
pure functions over immutable datatypes that mirror types.ts. Each side effect
the component performs becomes a value of `Effects.Effect`: a database write, a
re-fetch, an alert, a banner, an SMS or a call. A handler then becomes a function
from its inputs to the ordered list of effects it performs. Remote outcomes are
inputs: did the status write fail, and with what message. So are the random
draw, the clock strings and the page origin.

Modules:

- `Wrappers`: `Option`.
- `Types`: the records of types.ts. `UniqueIds` states that the inventory table is keyed by `id`.
- `Text`: `toLowerCase`, `includes`, `startsWith`, `split(c)[0]`, `split('/').pop()`, and decimal rendering.
- `InventoryTable`: `update(...).eq('id', id)` on the inventory rows.
- `Effects`: the effect values and the rows written.
- `StockRule`: the stock decrement applied when an order is accepted.
- `OrderCreation`: `sendPrescriptionToPharmacy`.
- `StatusUpdate`: `updateOrderStatus`.
- `Restock`: `handleRestock`.
- `Routing`: `handleLogin`, the public `/order/` route and `renderContent`.
- `Witnesses`: the rules on the mock inventory of constants.ts.

The inventory match runs in one direction only. An item matches a medicine
when the item's lowercased name occurs inside the medicine's lowercased name,
not the other way round. So a line item named just "Paracetamol" does not match
the inventory item "Paracetamol (500mg)" (`Witnesses.BareNameDoesNotMatch`),
whereas one named "Paracetamol (500mg)" does (`Witnesses.FullNameMatches`).
No rule reads an order's current status before acting on a new one. Accepting
an order that is already `Ready` writes its stock again:
`StatusUpdate.StockWritesOnlyOnAccept` holds whatever status the order had.

## Model

| member | source | states |
|---|---|---|
| Text.Includes | App.tsx:195 | `includes` holds exactly when the needle occurs at some position of the string; the empty needle occurs everywhere |
| Text.ToLower | App.tsx:195 | lowercasing keeps the length, turns each letter `A`-`Z` into the lower-case letter of the same place in the alphabet, leaves every other character as it was, and leaves no upper-case letter |
| Text.ToLowerIdempotent | App.tsx:195 | lowercasing an already lowercased string changes nothing |
| Text.StartsWith | App.tsx:229 | `startsWith` holds exactly when the string is the prefix followed by the rest of the string |
| Text.LastSegment | App.tsx:230 | the popped segment holds no `/`, is a suffix of the path, and is either the whole path or preceded by a `/` |
| Text.LastSegmentAfterSlash | App.tsx:230 | whatever precedes the last `/`, the popped segment is the text after it |
| Text.BeforeFirst | App.tsx:224 | `split(c)[0]` holds no `c`, is a prefix, and is either the whole string or followed by `c` |
| Text.NatToDecimal | App.tsx:160 | the rendered number is a non-empty digit string, one digit long exactly below 10 |
| Text.DecimalRoundTrip | App.tsx:160 | reading the rendered digits back gives the number |
| Text.FourDigits | App.tsx:160 | every number from 1000 to 9999 renders with four digits |
| InventoryTable.UpdateById | App.tsx:197 | an update by id keeps one row per row, and a keyed table stays keyed |
| InventoryTable.UpdateTouchesOnlyId | App.tsx:197 | an update by id leaves rows with other ids untouched; a row with the id takes the patched stock (and date, for a restock) and keeps every other column |
| InventoryTable.UpdateExistingRow | App.tsx:197 | on a keyed table, an update by an existing id patches exactly that row |
| InventoryTable.UpdateMissingRow | App.tsx:224 | an update by an id no row carries changes nothing |
| StockRule.ItemMatches | App.tsx:195 | an item matches a medicine exactly when the item's lowercased name occurs at some position of the medicine's lowercased name |
| StockRule.MatchIgnoresCase | App.tsx:195 | lowercasing both names beforehand does not change whether they match |
| StockRule.MatchIgnoresCaseOneSide | App.tsx:195 | lowercasing only the item name, or only the medicine name, beforehand does not change whether they match |
| StockRule.FirstMatch | App.tsx:195-196 | the result is the first item whose lowercased name occurs in the lowercased medicine name; it is absent exactly when no item matches |
| StockRule.LongerNameNeverMatches | App.tsx:195 | an inventory name longer than the medicine name never matches it |
| StockRule.Decremented | App.tsx:197 | the written stock is never negative, never above a non-negative snapshot stock, and exactly five lower when five are there |
| StockRule.WriteFor | App.tsx:195-197 | a medicine causes no write exactly when `find` returns no item; otherwise one non-negative write, computed from a snapshot item, to the first matching item |
| StockRule.StockWrites | App.tsx:194-199 | at most one write per medicine, each writing a non-negative `max(0, stock - 5)` of some snapshot item to that item |
| StockRule.NoWritesIffNoMatch | App.tsx:194-199 | an order causes no stock write exactly when none of its medicines matches an inventory item |
| StockRule.ApplyWrites | App.tsx:197 | performing stock writes changes no row's fields other than `stock` |
| StockRule.ApplyStockWritesFrom | App.tsx:192-199 | the writes patch each matched row with the value computed from the snapshot and leave every other row as it was |
| StockRule.AcceptedInventory | App.tsx:191-199 | after acceptance an item matched by one or more medicines holds `max(0, s - 5)`, an unmatched item is unchanged, and only `stock` is written |
| StockRule.AcceptedStockBounds | App.tsx:197 | with non-negative snapshot stocks, every stock after acceptance lies between 0 and its snapshot stock |
| StockRule.RepeatedMatchDecrementsOnce | App.tsx:194-197 | two medicines matching the same item take five units once, not ten |
| StockRule.UnmatchedOrderLeavesInventory | App.tsx:195-196 | if no inventory name occurs in any medicine name, there are no writes and the inventory is unchanged |
| OrderCreation.OrderNumber | App.tsx:160 | the drawn order number lies in [1000, 9999] |
| OrderCreation.EveryOrderNumberDrawable | App.tsx:160 | every number in [1000, 9999] is produced by some draw |
| OrderCreation.OrderId | App.tsx:160 | an order id is `ORD-` followed by at least one digit, and those digits read back as the number drawn |
| OrderCreation.OrderIdShape | App.tsx:160 | an order id is `ORD-` plus four digits, holds no `/`, and parses back to its number |
| OrderCreation.LineItemRows | App.tsx:174-180 | one line-item row per medicine, each carrying the order id |
| OrderCreation.MedicinesOf | App.tsx:138-143 | the row mapper gives one medicine per line-item row, in row order, with the row's name, dosage, duration and instruction |
| OrderCreation.LineItemsRoundTrip | App.tsx:174-180 | the line-item rows, given to the row mapper in the order inserted, read back as exactly the medicines sent, in order |
| OrderCreation.PrescriptionEffects | App.tsx:159-185 | the order row is inserted first: `Pending`, prep time 5 × medicines, the drawn id. A failed insert only raises its message; otherwise the line items and the confirmation banner follow |
| OrderCreation.CreatedOrder | App.tsx:160-182 | a created order is `Pending`, has prep time 5 × medicines, and has an id `ORD-n` with 1000 ≤ n ≤ 9999. Its line-item rows are one per medicine, in order, carry that id, and read back as the medicines |
| StatusUpdate.FindOrderIndex | App.tsx:192 | the result is the first local order with the id; it is absent exactly when no order has it |
| StatusUpdate.FindOrder | App.tsx:192 | a found order is one of the local orders and has the id; nothing is found exactly when no local order has the id |
| StatusUpdate.TrackingUrl | App.tsx:204 | the tracking link is the origin followed by `/order/`, and its last path segment is the order id when that id holds no `/` |
| StatusUpdate.AcceptNotifications | App.tsx:202-207 | the acceptance notification writes no stock and places no call; it sends an SMS exactly when the patient has a phone |
| StatusUpdate.AcceptedEffects | App.tsx:194-207 | acceptance effects never place a call; an SMS is among them exactly when the phone is non-empty, and it goes to that patient with the tracking link |
| StatusUpdate.AcceptedEffectsOrder | App.tsx:194-205 | on acceptance every stock write comes before the inventory re-fetch, and the re-fetch comes before the SMS; nothing after the re-fetch writes stock |
| StatusUpdate.AcceptedStockWrites | App.tsx:194-199 | the stock writes among the acceptance effects are exactly the stock rule's writes for the order's medicines, in order |
| StatusUpdate.ReadyEffects | App.tsx:211-217 | ready effects send no SMS and write no stock; a call is among them exactly when the phone is non-empty |
| StatusUpdate.OnPreparing | App.tsx:191-209 | the `Preparing` branch places no call; it sends an SMS exactly for `Preparing` on a locally known order with a phone, to that patient with the tracking link |
| StatusUpdate.OnReady | App.tsx:211-218 | the `Ready` branch sends no SMS and writes no stock; it places a call exactly for `Ready` on a locally known order with a phone, to that patient |
| StatusUpdate.StatusEffects | App.tsx:187-221 | the status write comes first; a failed write is followed only by its alert; the order list is re-fetched last exactly when the write succeeded |
| StatusUpdate.FailedWriteHalts | App.tsx:188-189 | after a failed status write there is no stock write, SMS, call or re-fetch |
| StatusUpdate.StockWritesOnlyOnAccept | App.tsx:191-199 | stock is written only after a successful `Preparing` write for a locally known order, and then the writes are exactly the stock rule's writes for its medicines |
| StatusUpdate.SmsOnlyOnAccept | App.tsx:202-207 | an SMS is sent exactly on a successful `Preparing` write for a known order with a phone, to `origin + "/order/" + id` |
| StatusUpdate.CallOnlyOnReady | App.tsx:211-217 | a call is placed exactly on a successful `Ready` write for a known order with a phone, to that patient |
| StatusUpdate.AlertOnlyOnFailure | App.tsx:188-189 | a failed status write raises its `Failed to update` alert, and a successful one raises no alert at all |
| StatusUpdate.NoAlertWhenAccepting | App.tsx:194-207 | accepting an order raises no alert |
| StatusUpdate.NoAlertInBranches | App.tsx:191-218 | neither the `Preparing` branch nor the `Ready` branch raises an alert |
| StatusUpdate.QuietStatuses | App.tsx:187-221 | a successful `Pending` or `Rejected` write is followed only by the order re-fetch |
| StatusUpdate.InventoryRefetchOnlyOnAccept | App.tsx:191-200 | the inventory is re-fetched exactly after a successful `Preparing` write for a locally known order |
| StatusUpdate.AcceptingOrderInventory | App.tsx:191-200 | performing the stock writes among the acceptance effects on the snapshot decrements each matched item once and leaves the rest unchanged |
| Restock.RestockDate | App.tsx:224 | the restock date is the part of the ISO timestamp before the first `T` |
| Restock.RestockEffects | App.tsx:223-226 | one write of the given stock and date, followed by the inventory re-fetch when the write succeeded and by nothing when it failed; no alert or banner either way |
| Restock.ApplyRestock | App.tsx:224 | every row with the id gets the new stock and date and keeps its other fields; every other row is untouched |
| Restock.RestockChangesOnlyTarget | App.tsx:224 | restocking sets the target's stock and date; no other field and no other item changes |
| Restock.RestockUnknownItem | App.tsx:224 | restocking an id no item carries changes nothing |
| Routing.InitialStateSignedOut | App.tsx:16-21 | the application starts signed out with no role, name or user id, on the `Dashboard` tab, so every non-public path shows the login page |
| Routing.Login | App.tsx:154-157 | login authenticates with the role, name and id, selects the `Live Orders` tab for Pharmacy and the `Dashboard` tab for Doctor, and so shows the pharmacy panel or the dashboard |
| Routing.Content | App.tsx:236-261 | a signed-in session sees a pharmacy screen exactly when its role is Pharmacy, the inventory, prescription and patient screens only on their own tabs, and never the login page or a public order page |
| Routing.ScreenFor | App.tsx:228-234 | the public order view shows exactly for `/order/` paths, with an id free of `/`; otherwise the login page shows exactly when not signed in |
| Routing.PublicRouteIgnoresSession | App.tsx:229-231 | the public order view does not depend on the session and shows the text after the last `/` |
| Routing.TrackingPathOpensOrder | App.tsx:229-231 | `/order/<id>` opens the public view of `<id>`, signed in or not |
| Routing.CreatedOrderLinkOpensOrder | App.tsx:229-231 | the tracking path of every drawn order id opens that order's public view |
| Routing.PharmacyScreens | App.tsx:237-240 | a pharmacist sees the inventory exactly on the `Inventory` tab and the orders panel on every other tab |
| Routing.DoctorScreens | App.tsx:242-260 | a doctor sees prescriptions and patients on their tabs and the dashboard on every other tab, never a pharmacy screen |
| Routing.LoginLandsOnHome | App.tsx:154-157 | after login a pharmacist lands on the live-orders panel and a doctor on the dashboard |
| Witnesses.MockInventoryKeyed | constants.ts:12-20 | the mock inventory's ids are distinct |
| Witnesses.FullNameMatches | App.tsx:195 | a line item named "Paracetamol (500mg)" matches inventory item INV-001 |
| Witnesses.UpperCaseNameMatches | App.tsx:195 | a line item named "PARACETAMOL (500MG)" matches inventory item INV-001 |
| Witnesses.BareNameDoesNotMatch | App.tsx:195 | a line item named "Paracetamol" matches no mock inventory item |
| Witnesses.IsoDatePart | App.tsx:224 | the restock date of `2024-05-01T09:30:00.000Z` is `2024-05-01` |
| Witnesses.RestockCetirizine | App.tsx:224 | restocking INV-004 to 300 on 2024-05-01 sets its stock to 300 and its date to 2024-05-01; INV-001 is unchanged |
| Witnesses.PublicOrderPage | App.tsx:229-231 | `/order/ORD-5501` opens the public view of ORD-5501 without signing in |

## Left out

- The database reads and their row mappers (App.tsx:64-152) are remote I/O and field renaming. The one exception is the line-item read-back, kept as `MedicinesOf`, the inverse that `LineItemsRoundTrip` proves against.
- The realtime subscription on `orders` and its re-fetch and banner (App.tsx:47-60) are asynchronous callbacks with no local decision.
- The doctor-profile fetch guard (App.tsx:43-45) is I/O.
- The SMS and voice-call services are only emitted as effects. Their source is not part of this model.
- Whether each stock write or the line-item insert succeeded is not modelled. The code awaits them but never reads the outcome.
- The interleaving of awaited calls with other handlers is not modelled. Effects are an ordered list, performed in that order. `fetchInventory` (App.tsx:200, 225) and `fetchOrders` (App.tsx:220) are not awaited, so they may finish after later effects. That is not modelled either.
- Banners are emitted, but their clearing after a `setTimeout` is not modelled. JSX rendering, `popstate` and styling are UI only. So are the tab changes that Sidebar, Dashboard and Patients request.
- `HospitalInfo` and `DoctorDetails` are passed through to screens untouched, so they are not mirrored.
- The session record is App's own (it adds `name`), not `AuthState` from types.ts.
- A patient phone that is null or undefined is not modelled. The phone is a string, and the code's truthiness test is "non-empty".
- `toLocaleTimeString` and `toISOString` are inputs, passed as opaque strings.
- StatusUpdate.StatusEffects: assumes the SMS and call requests resolve. A rejected `sendOrderAcceptedSMS` or `triggerOrderReadyCall` (awaited at App.tsx:205 and App.tsx:215) would abandon the handler, so neither the banner timeout nor the closing `fetchOrders` (App.tsx:206, 216, 220) would run. The model always ends a successful write with the re-fetch.
- StockRule.Decremented: takes stock as an integer. An inventory item's `stock`, `maxStock` and `minThreshold` are JavaScript numbers (types.ts:34-36), so `Math.max(0, stock - 5)` at App.tsx:197 can also see fractions or `NaN`. The model takes all three as integers.
- OrderCreation.LineItemsRoundTrip: the line items read back in order by the mapper (App.tsx:138-143) only. The select at App.tsx:118-125 does not order the embedded `order_medicines` rows, so the database may return them in another order.
- Text.ToLower: lowercases only ASCII `A`-`Z`. JavaScript's `toLowerCase` also folds non-ASCII letters, which the mock data never uses.
- OrderCreation.OrderNumber: takes `Math.random()` as an exact fraction `draw / 2^53` and computes the product exactly, without floating-point rounding.
- StockRule.AcceptedInventory: assumes the inventory ids are distinct, since `id` is the table's key. With duplicate ids, the update by id would also patch the other rows that share the id.

=== FILE: effects.dfy ===
/** The side effects the application's handlers perform, as values: the
    remote writes, the re-fetches, the alerts and banners shown, and the
    calls into the SMS and voice-call notification services. */
module Effects {
  import opened Wrappers
  import opened Types

  /** One write to the `inventory` table's `stock` column. */
  datatype StockWrite = StockWrite(itemId: string, stock: int)

  /** The row inserted into the `orders` table. */
  datatype OrderRow = OrderRow(
    id: string,
    patientId: string,
    status: OrderStatus,
    timestamp: string,
    prepTimeMinutes: int,
    doctorName: Option<string>)

  /** A row inserted into the `order_medicines` table. */
  datatype LineItemRow = LineItemRow(
    orderId: string,
    medicineName: string,
    dosage: string,
    duration: string,
    instruction: string)

  datatype Effect =
    | InsertOrder(header: OrderRow)
    | InsertLineItems(rows: seq<LineItemRow>)
    | WriteOrderStatus(orderId: string, status: OrderStatus)
    | WriteStock(write: StockWrite)
    | WriteRestock(itemId: string, stock: int, lastRestocked: string)
    | RefetchOrders
    | RefetchInventory
    | Alert(message: string)
    | Banner(message: string)
    | SendSms(phone: string, patientName: string, orderId: string, url: string)
    | PlaceCall(phone: string, patientName: string)

  /** The stock writes among `effects`, in the order they are issued. */
  function StockWritesOf(effects: seq<Effect>): seq<StockWrite> {
    if |effects| == 0 then []
    else (if effects[0].WriteStock? then [effects[0].write] else []) + StockWritesOf(effects[1..])
  }

  lemma {:induction false} StockWritesOfAppend(a: seq<Effect>, b: seq<Effect>)
    ensures StockWritesOf(a + b) == StockWritesOf(a) + StockWritesOf(b)
    decreases |a|
  {
    if |a| == 0 {
      assert a + b == b;
    } else {
      var head := if a[0].WriteStock? then [a[0].write] else [];
      assert (a + b)[0] == a[0];
      assert (a + b)[1..] == a[1..] + b;
      assert StockWritesOf(a + b) == head + StockWritesOf(a[1..] + b);
      StockWritesOfAppend(a[1..], b);
      assert StockWritesOf(a) == head + StockWritesOf(a[1..]);
    }
  }

  function WriteStockEffects(ws: seq<StockWrite>): (e: seq<Effect>)
    ensures |e| == |ws|
    ensures forall i :: 0 <= i < |e| ==> e[i] == WriteStock(ws[i])
  {
    seq(|ws|, i requires 0 <= i < |ws| => WriteStock(ws[i]))
  }

  lemma {:induction false} StockWritesOfWriteStockEffects(ws: seq<StockWrite>)
    ensures StockWritesOf(WriteStockEffects(ws)) == ws
    decreases |ws|
  {
    if |ws| > 0 {
      assert WriteStockEffects(ws)[1..] == WriteStockEffects(ws[1..]);
      StockWritesOfWriteStockEffects(ws[1..]);
    }
  }

  /** `effects` holds no stock write. */
  lemma {:induction false} NoStockWritesOf(effects: seq<Effect>)
    requires forall x :: x in effects ==> !x.WriteStock?
    ensures StockWritesOf(effects) == []
    decreases |effects|
  {
    if |effects| > 0 {
      assert effects[0] in effects;
      assert forall x :: x in effects[1..] ==> x in effects;
      NoStockWritesOf(effects[1..]);
    }
  }
}

=== FILE: inventory_table.dfy ===
/** The remote `inventory` table as the application writes to it:
    `update(patch).eq('id', id)` patches every row carrying that id. */
module InventoryTable {
  import opened Types

  /** The columns one update sets: `stock` alone (order acceptance) or
      `stock` and `last_restocked` together (restock). */
  datatype Patch = StockPatch(stock: int) | RestockPatch(stock: int, lastRestocked: string)

  function Patched(item: InventoryItem, p: Patch): InventoryItem {
    match p
    case StockPatch(s) => item.(stock := s)
    case RestockPatch(s, d) => item.(stock := s, lastRestocked := d)
  }

  /** `update(p).eq('id', id)`: one row out for each row in, and a keyed
      table stays keyed. */
  function UpdateById(rows: seq<InventoryItem>, id: string, p: Patch): (r: seq<InventoryItem>)
    ensures |r| == |rows|
    ensures UniqueIds(rows) ==> UniqueIds(r)
  {
    seq(|rows|, i requires 0 <= i < |rows| => if rows[i].id == id then Patched(rows[i], p) else rows[i])
  }

  /** An update by id leaves rows with other ids untouched; a row with the
      id takes the patch's stock (and date, for a restock) and keeps every
      other column. */
  lemma UpdateTouchesOnlyId(rows: seq<InventoryItem>, id: string, p: Patch)
    ensures forall i :: 0 <= i < |rows| && rows[i].id != id ==> UpdateById(rows, id, p)[i] == rows[i]
    ensures forall i :: 0 <= i < |rows| && rows[i].id == id ==>
      var r := UpdateById(rows, id, p);
      r[i].stock == p.stock && r[i] == rows[i].(stock := r[i].stock, lastRestocked := r[i].lastRestocked)
    ensures forall i :: 0 <= i < |rows| && rows[i].id == id ==>
      UpdateById(rows, id, p)[i].lastRestocked == if p.RestockPatch? then p.lastRestocked else rows[i].lastRestocked
  {
  }

  /** On a keyed table an update by an existing id patches exactly that row. */
  lemma UpdateExistingRow(rows: seq<InventoryItem>, k: int, p: Patch)
    requires UniqueIds(rows)
    requires 0 <= k < |rows|
    ensures UpdateById(rows, rows[k].id, p) == rows[k := Patched(rows[k], p)]
  {
  }

  /** An update by an id no row carries changes nothing. */
  lemma UpdateMissingRow(rows: seq<InventoryItem>, id: string, p: Patch)
    requires forall i :: 0 <= i < |rows| ==> rows[i].id != id
    ensures UpdateById(rows, id, p) == rows
  {
  }
}

=== FILE: order_creation.dfy ===
/** Sending a prescription to the pharmacy: the order id is drawn, the
    `orders` row is inserted, and, only if that insert succeeded, one
    `order_medicines` row per medicine follows together with a banner. */
module OrderCreation {
  import opened Wrappers
  import opened Types
  import opened Text
  import opened Effects

  /** Minutes of preparation estimated per medicine. */
  const MinutesPerMedicine: int := 5

  const OrderIdPrefix: string := "ORD-"

  /** `Math.random()` is taken to return `draw / RandomScale` for some
      `draw` in `[0, RandomScale)`. */
  const RandomScale: nat := 0x20_0000_0000_0000

  /** `Math.floor(1000 + Math.random() * 9000)`. */
  function OrderNumber(draw: nat): (n: int)
    requires draw < RandomScale
    ensures 1000 <= n <= 9999
  {
    assert draw * 9000 < RandomScale * 9000;
    1000 + (draw * 9000) / RandomScale
  }

  /** Every four-digit number from 1000 to 9999 can be drawn. */
  lemma EveryOrderNumberDrawable(n: int)
    requires 1000 <= n <= 9999
    ensures exists draw: nat :: draw < RandomScale && OrderNumber(draw) == n
  {
    var q := n - 1000;
    var draw: nat := (q * RandomScale + 8999) / 9000;
    assert q * RandomScale <= draw * 9000 < q * RandomScale + 9000;
    assert draw < RandomScale;
    assert q * RandomScale <= draw * 9000 < (q + 1) * RandomScale;
    assert (draw * 9000) / RandomScale == q;
    assert OrderNumber(draw) == n;
  }

  /** `ORD-${n}`: the prefix followed by the digits of `n`, which can be
      read back as `n`. */
  function OrderId(n: nat): (id: string)
    ensures StartsWith(id, OrderIdPrefix) && |id| > |OrderIdPrefix|
    ensures AllDigits(id[|OrderIdPrefix|..])
    ensures DecimalToNat(id[|OrderIdPrefix|..]) == n
  {
    DecimalRoundTrip(n);
    assert (OrderIdPrefix + NatToDecimal(n))[|OrderIdPrefix|..] == NatToDecimal(n);
    OrderIdPrefix + NatToDecimal(n)
  }

  /** Reads the number back out of an order id of the form `ORD-<digits>`. */
  function ParseOrderId(id: string): Option<nat> {
    if StartsWith(id, OrderIdPrefix) && |id| > |OrderIdPrefix| && AllDigits(id[|OrderIdPrefix|..])
    then Some(DecimalToNat(id[|OrderIdPrefix|..]))
    else None
  }

  /** A drawn order id is `ORD-` and four digits, carries no `/`, and
      gives back the number it was built from. */
  lemma OrderIdShape(n: nat)
    requires 1000 <= n <= 9999
    ensures StartsWith(OrderId(n), OrderIdPrefix)
    ensures |OrderId(n)| == |OrderIdPrefix| + 4
    ensures '/' !in OrderId(n)
    ensures ParseOrderId(OrderId(n)) == Some(n)
  {
    var id := OrderId(n);
    FourDigits(n);
    DecimalRoundTrip(n);
    assert id[..|OrderIdPrefix|] == OrderIdPrefix;
    assert id[|OrderIdPrefix|..] == NatToDecimal(n);
    assert forall k :: 0 <= k < |id| ==> id[k] != '/' by {
      forall k | 0 <= k < |id| ensures id[k] != '/' {
        if k >= |OrderIdPrefix| {
          assert id[k] == NatToDecimal(n)[k - |OrderIdPrefix|];
        }
      }
    }
  }

  /** The `order_medicines` rows for an order, one per medicine, in order. */
  function LineItemRows(orderId: string, meds: seq<Medicine>): (rows: seq<LineItemRow>)
    ensures |rows| == |meds|
    ensures forall i :: 0 <= i < |rows| ==> rows[i].orderId == orderId
  {
    if |meds| == 0 then []
    else
      [LineItemRow(orderId, meds[0].name, meds[0].dosage, meds[0].duration, meds[0].instruction)]
      + LineItemRows(orderId, meds[1..])
  }

  /** How an order's `order_medicines` rows read back as its medicines:
      one medicine per row, in row order, taking the row's medicine name,
      dosage, duration and instruction and dropping its order id. */
  function MedicinesOf(rows: seq<LineItemRow>): (meds: seq<Medicine>)
    ensures |meds| == |rows|
    ensures forall i :: 0 <= i < |rows| ==>
      meds[i].name == rows[i].medicineName && meds[i].dosage == rows[i].dosage
      && meds[i].duration == rows[i].duration && meds[i].instruction == rows[i].instruction
  {
    if |rows| == 0 then []
    else
      [Medicine(rows[0].medicineName, rows[0].dosage, rows[0].duration, rows[0].instruction)]
      + MedicinesOf(rows[1..])
  }

  /** The row mapper reads the line items back as exactly the medicines
      sent, in order, when it is given the rows in the order inserted. */
  lemma {:induction false} LineItemsRoundTrip(orderId: string, meds: seq<Medicine>)
    ensures MedicinesOf(LineItemRows(orderId, meds)) == meds
    decreases |meds|
  {
    if |meds| > 0 {
      var rows := LineItemRows(orderId, meds);
      assert rows[1..] == LineItemRows(orderId, meds[1..]);
      LineItemsRoundTrip(orderId, meds[1..]);
    }
  }

  /** The effects of `sendPrescriptionToPharmacy`, given the random draw,
      the formatted time, the signed-in doctor's name and the outcome of
      the `orders` insert. */
  function PrescriptionEffects(
    patient: Patient, meds: seq<Medicine>, draw: nat, timestamp: string,
    doctorName: Option<string>, insertError: Option<string>): (e: seq<Effect>)
    requires draw < RandomScale
    ensures 2 <= |e| && e[0].InsertOrder?
    ensures e[0].header.id == OrderId(OrderNumber(draw))
    ensures e[0].header.patientId == patient.id
    ensures e[0].header.status == Pending
    ensures e[0].header.prepTimeMinutes == MinutesPerMedicine * |meds|
    ensures e[0].header.timestamp == timestamp && e[0].header.doctorName == doctorName
    ensures insertError.Some? ==> e == [e[0], Alert(insertError.value)]
    ensures insertError.None? ==>
      e == [e[0], InsertLineItems(LineItemRows(e[0].header.id, meds)),
            Banner("Order " + e[0].header.id + " synced to Pharmacy.")]
  {
    var id := OrderId(OrderNumber(draw));
    var header := OrderRow(id, patient.id, Pending, timestamp, |meds| * MinutesPerMedicine, doctorName);
    [InsertOrder(header)] +
    match insertError
    case Some(message) => [Alert(message)]
    case None => [InsertLineItems(LineItemRows(id, meds)), Banner("Order " + id + " synced to Pharmacy.")]
  }

  /** A created order: one `orders` row that starts `Pending`, whose id is
      `ORD-` and a number from 1000 to 9999, and, when that insert
      succeeds, exactly one line-item row per medicine, in input order,
      each carrying the order's id, which read back as the medicines sent. */
  lemma CreatedOrder(
    patient: Patient, meds: seq<Medicine>, draw: nat, timestamp: string,
    doctorName: Option<string>)
    requires draw < RandomScale
    ensures var e := PrescriptionEffects(patient, meds, draw, timestamp, doctorName, None);
      && e[0].header.status == Pending
      && e[0].header.prepTimeMinutes == MinutesPerMedicine * |meds|
      && (exists n :: 1000 <= n <= 9999 && ParseOrderId(e[0].header.id) == Some(n))
      && e[1].InsertLineItems?
      && |e[1].rows| == |meds|
      && (forall i :: 0 <= i < |meds| ==> e[1].rows[i].orderId == e[0].header.id)
      && MedicinesOf(e[1].rows) == meds
  {
    var e := PrescriptionEffects(patient, meds, draw, timestamp, doctorName, None);
    var n := OrderNumber(draw);
    OrderIdShape(n);
    LineItemsRoundTrip(e[0].header.id, meds);
  }
}

=== FILE: restock.dfy ===
/** Restocking an inventory item (`handleRestock`): one write of the new
    stock and today's date, then a re-fetch of the inventory if the write
    succeeded; a failed write is dropped silently. */
module Restock {
  import opened Wrappers
  import opened Types
  import opened Text
  import opened InventoryTable
  import opened Effects

  /** `toISOString().split('T')[0]`: the date part of an ISO timestamp. */
  function RestockDate(isoTimestamp: string): (d: string)
    ensures 'T' !in d
    ensures StartsWith(isoTimestamp, d)
    ensures |d| == |isoTimestamp| || isoTimestamp[|d|] == 'T'
  {
    BeforeFirst(isoTimestamp, 'T')
  }

  /** The effects of `handleRestock(id, stock)` at time `isoNow`, given the
      outcome of the write. */
  function RestockEffects(id: string, stock: int, isoNow: string, writeError: Option<string>): (e: seq<Effect>)
    ensures |e| == if writeError.None? then 2 else 1
    ensures e[0].WriteRestock? && e[0].itemId == id && e[0].stock == stock
    ensures e[0].lastRestocked == RestockDate(isoNow)
    ensures RefetchInventory in e <==> writeError.None?
    ensures forall x :: x in e ==> !x.Alert? && !x.Banner?
  {
    [WriteRestock(id, stock, RestockDate(isoNow))] + if writeError.None? then [RefetchInventory] else []
  }

  /** What the restock write does to the inventory table's rows: every row
      with the id gets the new stock and date and keeps its other fields;
      every other row is untouched. */
  function ApplyRestock(rows: seq<InventoryItem>, id: string, stock: int, date: string): (r: seq<InventoryItem>)
    ensures |r| == |rows|
    ensures forall j :: 0 <= j < |rows| && rows[j].id == id ==>
      r[j].stock == stock && r[j].lastRestocked == date
    ensures forall j :: 0 <= j < |rows| ==>
      r[j] == rows[j].(stock := r[j].stock, lastRestocked := r[j].lastRestocked)
    ensures forall j :: 0 <= j < |rows| && rows[j].id != id ==> r[j] == rows[j]
  {
    UpdateById(rows, id, RestockPatch(stock, date))
  }

  /** Restocking an item sets its stock to the value given and its
      last-restocked date to the date given; no other field and no other
      item changes. */
  lemma RestockChangesOnlyTarget(rows: seq<InventoryItem>, k: int, stock: int, date: string)
    requires UniqueIds(rows)
    requires 0 <= k < |rows|
    ensures var after := ApplyRestock(rows, rows[k].id, stock, date);
      && |after| == |rows|
      && after[k].stock == stock && after[k].lastRestocked == date
      && after[k] == rows[k].(stock := stock, lastRestocked := date)
      && forall j :: 0 <= j < |rows| && j != k ==> after[j] == rows[j]
  {
    UpdateExistingRow(rows, k, RestockPatch(stock, date));
  }

  /** Restocking an id no item carries leaves the inventory unchanged. */
  lemma RestockUnknownItem(rows: seq<InventoryItem>, id: string, stock: int, date: string)
    requires forall j :: 0 <= j < |rows| ==> rows[j].id != id
    ensures ApplyRestock(rows, id, stock, date) == rows
  {
    UpdateMissingRow(rows, id, RestockPatch(stock, date));
  }
}

=== FILE: routing.dfy ===
/** Sign-in and screen selection: the public `/order/<id>` route, the
    login gate, and the screen each role sees for the selected tab. */
module Routing {
  import opened Wrappers
  import opened Text
  import opened OrderCreation

  datatype Role = Doctor | Pharmacy

  /** The session the application holds. */
  datatype Auth = Auth(isAuthenticated: bool, role: Option<Role>, name: Option<string>, userId: Option<int>)

  datatype AppState = AppState(auth: Auth, activeTab: string)

  const InitialState: AppState := AppState(Auth(false, None, None, None), "Dashboard")

  const PublicOrderPrefix: string := "/order/"

  /** The application starts signed out, with no role, name or user id,
      on the `Dashboard` tab, so every path but a public order page shows
      the login page. */
  lemma InitialStateSignedOut(path: string)
    requires !StartsWith(path, PublicOrderPrefix)
    ensures !InitialState.auth.isAuthenticated && InitialState.auth.role.None?
    ensures InitialState.auth.name.None? && InitialState.auth.userId.None?
    ensures InitialState.activeTab == "Dashboard"
    ensures ScreenFor(path, InitialState) == LoginPage
  {
  }

  /** The screen rendered; `OrderView` carries the order id it shows. */
  datatype Screen =
    | OrderView(orderId: string)
    | LoginPage
    | InventoryScreen
    | PharmacyPanel
    | DashboardScreen
    | PrescriptionPanel
    | PatientsScreen

  /** The screen for a signed-in session (`renderContent`): a pharmacy
      screen exactly for the Pharmacy role, each tab screen only on its own
      tab, and never the login page or a public order page. */
  function Content(state: AppState): (r: Screen)
    ensures r != LoginPage && !r.OrderView?
    ensures r == InventoryScreen || r == PharmacyPanel <==> state.auth.role == Some(Pharmacy)
    ensures r == InventoryScreen ==> state.activeTab == "Inventory"
    ensures r == PrescriptionPanel ==> state.activeTab == "Prescriptions"
    ensures r == PatientsScreen ==> state.activeTab == "Patients"
  {
    if state.auth.role == Some(Pharmacy) then
      if state.activeTab == "Inventory" then InventoryScreen else PharmacyPanel
    else if state.activeTab == "Prescriptions" then PrescriptionPanel
    else if state.activeTab == "Patients" then PatientsScreen
    else DashboardScreen
  }

  /** `handleLogin(role, name, userId)`. */
  function Login(state: AppState, role: Role, name: string, userId: int): (s: AppState)
    ensures s.auth.isAuthenticated && s.auth.role == Some(role)
    ensures s.auth.name == Some(name) && s.auth.userId == Some(userId)
    ensures s.activeTab == if role == Pharmacy then "Live Orders" else "Dashboard"
    ensures Content(s) == if role == Pharmacy then PharmacyPanel else DashboardScreen
  {
    AppState(Auth(true, Some(role), Some(name), Some(userId)),
             if role == Pharmacy then "Live Orders" else "Dashboard")
  }

  /** The screen shown at `path` in `state`. */
  function ScreenFor(path: string, state: AppState): (r: Screen)
    ensures r.OrderView? <==> StartsWith(path, PublicOrderPrefix)
    ensures r.OrderView? ==> '/' !in r.orderId
    ensures r == LoginPage <==> !StartsWith(path, PublicOrderPrefix) && !state.auth.isAuthenticated
  {
    if StartsWith(path, PublicOrderPrefix) then OrderView(LastSegment(path))
    else if !state.auth.isAuthenticated then LoginPage
    else Content(state)
  }

  /** The public order page depends on the path alone, never on the
      session, and shows the text after the path's last `/`. */
  lemma PublicRouteIgnoresSession(path: string, s1: AppState, s2: AppState)
    requires StartsWith(path, PublicOrderPrefix)
    ensures ScreenFor(path, s1) == ScreenFor(path, s2)
    ensures ScreenFor(path, s1).orderId == LastSegment(path)
  {
  }

  /** The path of an order's tracking link opens that order's public page,
      signed in or not. */
  lemma {:induction false} TrackingPathOpensOrder(orderId: string, state: AppState)
    requires '/' !in orderId
    ensures ScreenFor(PublicOrderPrefix + orderId, state) == OrderView(orderId)
  {
    var path := PublicOrderPrefix + orderId;
    assert path[..|PublicOrderPrefix|] == PublicOrderPrefix;
    assert path == "/order" + "/" + orderId;
    LastSegmentAfterSlash("/order", orderId);
  }

  /** Every order the doctor creates can be opened from its tracking link. */
  lemma CreatedOrderLinkOpensOrder(n: nat, state: AppState)
    requires 1000 <= n <= 9999
    ensures ScreenFor(PublicOrderPrefix + OrderId(n), state) == OrderView(OrderId(n))
  {
    OrderIdShape(n);
    TrackingPathOpensOrder(OrderId(n), state);
  }

  /** A signed-in pharmacist sees the inventory exactly on the `Inventory`
      tab and the live-orders panel on every other tab. */
  lemma PharmacyScreens(path: string, state: AppState)
    requires !StartsWith(path, PublicOrderPrefix)
    requires state.auth.isAuthenticated && state.auth.role == Some(Pharmacy)
    ensures ScreenFor(path, state) == InventoryScreen <==> state.activeTab == "Inventory"
    ensures ScreenFor(path, state) == PharmacyPanel <==> state.activeTab != "Inventory"
  {
  }

  /** A signed-in doctor sees the prescription composer and the patient
      list on their tabs and the dashboard on every other tab. */
  lemma DoctorScreens(path: string, state: AppState)
    requires !StartsWith(path, PublicOrderPrefix)
    requires state.auth.isAuthenticated && state.auth.role == Some(Doctor)
    ensures ScreenFor(path, state) == PrescriptionPanel <==> state.activeTab == "Prescriptions"
    ensures ScreenFor(path, state) == PatientsScreen <==> state.activeTab == "Patients"
    ensures ScreenFor(path, state) == DashboardScreen <==>
      state.activeTab != "Prescriptions" && state.activeTab != "Patients"
    ensures ScreenFor(path, state) != InventoryScreen && ScreenFor(path, state) != PharmacyPanel
  {
  }

  /** Signing in lands a pharmacist on the live-orders panel and a doctor
      on the dashboard, whatever tab was selected before. */
  lemma LoginLandsOnHome(path: string, state: AppState, role: Role, name: string, userId: int)
    requires !StartsWith(path, PublicOrderPrefix)
    ensures ScreenFor(path, Login(state, role, name, userId)) ==
      if role == Pharmacy then PharmacyPanel else DashboardScreen
  {
  }
}

=== FILE: status_update.dfy ===
/** What follows a pharmacist's status change (`updateOrderStatus`): the
    status write, then, only if it succeeded, the stock writes and SMS for
    an accepted order or the voice call for a ready one, and a re-fetch of
    the orders. */
module StatusUpdate {
  import opened Wrappers
  import opened Types
  import opened Text
  import opened Effects
  import opened StockRule

  /** The position of the first local order carrying `orderId`. */
  function FindOrderIndex(orders: seq<PharmacyOrder>, orderId: string): (r: Option<nat>)
    ensures r.Some? ==> r.value < |orders| && orders[r.value].id == orderId
    ensures r.Some? ==> forall j :: 0 <= j < r.value ==> orders[j].id != orderId
    ensures r.None? <==> forall j :: 0 <= j < |orders| ==> orders[j].id != orderId
  {
    if |orders| == 0 then None
    else if orders[0].id == orderId then Some(0)
    else
      match FindOrderIndex(orders[1..], orderId)
      case None => None
      case Some(k) => Some(k + 1)
  }

  /** `orders.find(o => o.id === orderId)`. */
  function FindOrder(orders: seq<PharmacyOrder>, orderId: string): (r: Option<PharmacyOrder>)
    ensures r.Some? ==> r.value in orders && r.value.id == orderId
    ensures r.None? <==> forall o :: o in orders ==> o.id != orderId
  {
    match FindOrderIndex(orders, orderId)
    case None => None
    case Some(k) => Some(orders[k])
  }

  /** The public tracking link sent in the SMS. */
  function TrackingUrl(origin: string, orderId: string): (url: string)
    ensures StartsWith(url, origin) && StartsWith(url[|origin|..], "/order/")
    ensures '/' !in orderId ==> LastSegment(url) == orderId
  {
    var url := origin + "/order/" + orderId;
    assert url[|origin|..] == "/order/" + orderId;
    assert url == origin + "/order" + "/" + orderId;
    if '/' in orderId then url
    else LastSegmentAfterSlash(origin + "/order", orderId); url
  }

  predicate HasSms(e: seq<Effect>) {
    exists x :: x in e && x.SendSms?
  }

  predicate HasCall(e: seq<Effect>) {
    exists x :: x in e && x.PlaceCall?
  }

  predicate HasStockWrite(e: seq<Effect>) {
    exists x :: x in e && x.WriteStock?
  }

  /** The banner and SMS that follow the stock writes on acceptance. */
  function AcceptNotifications(order: PharmacyOrder, orderId: string, origin: string): (e: seq<Effect>)
    ensures !HasCall(e) && !HasStockWrite(e)
    ensures HasSms(e) <==> order.patient.phone != ""
  {
    if order.patient.phone != "" then
      var e := [Banner("Link sent to " + order.patient.name),
                SendSms(order.patient.phone, order.patient.name, orderId, TrackingUrl(origin, orderId))];
      assert e[1] in e;
      e
    else []
  }

  /** What follows a successful write of `Preparing` for `order`. */
  function AcceptedEffects(order: PharmacyOrder, orderId: string, inventory: seq<InventoryItem>, origin: string): (e: seq<Effect>)
    ensures !HasCall(e)
    ensures HasSms(e) <==> order.patient.phone != ""
    ensures forall x :: x in e && x.SendSms? ==>
      x == SendSms(order.patient.phone, order.patient.name, orderId, TrackingUrl(origin, orderId))
  {
    var ws := WriteStockEffects(StockWrites(order.medicines, inventory));
    assert forall x :: x in ws ==> x.WriteStock?;
    ws + ([RefetchInventory] + AcceptNotifications(order, orderId, origin))
  }

  /** The stock writes on acceptance are the stock rule's, in order. */
  lemma AcceptedStockWrites(order: PharmacyOrder, orderId: string, inventory: seq<InventoryItem>, origin: string)
    ensures StockWritesOf(AcceptedEffects(order, orderId, inventory, origin))
      == StockWrites(order.medicines, inventory)
  {
    var ws := StockWrites(order.medicines, inventory);
    var tail := [RefetchInventory] + AcceptNotifications(order, orderId, origin);
    NoStockWritesOf(tail);
    StockWritesOfWriteStockEffects(ws);
    StockWritesOfAppend(WriteStockEffects(ws), tail);
  }

  /** On acceptance the stock writes come first, then the inventory
      re-fetch, then the banner and SMS: the re-fetch follows every stock
      write, and the SMS follows the re-fetch. */
  lemma {:induction false} AcceptedEffectsOrder(order: PharmacyOrder, orderId: string, inventory: seq<InventoryItem>, origin: string)
    ensures var e := AcceptedEffects(order, orderId, inventory, origin);
      var n := |StockWrites(order.medicines, inventory)|;
      && n < |e| && e[n] == RefetchInventory
      && (forall i :: 0 <= i < n ==> e[i].WriteStock?)
      && (forall i :: n <= i < |e| ==> !e[i].WriteStock?)
      && (forall i :: 0 <= i <= n ==> !e[i].SendSms?)
  {
    var ws := WriteStockEffects(StockWrites(order.medicines, inventory));
    var notes := AcceptNotifications(order, orderId, origin);
    var tl := [RefetchInventory] + notes;
    assert AcceptedEffects(order, orderId, inventory, origin) == ws + tl;
    forall i | 0 <= i < |tl|
      ensures !tl[i].WriteStock?
    {
      if i > 0 {
        assert tl[i] == notes[i - 1] && notes[i - 1] in notes;
      }
    }
  }

  /** What follows a successful write of `Ready` for `order`. */
  function ReadyEffects(order: PharmacyOrder): (e: seq<Effect>)
    ensures !HasSms(e) && !HasStockWrite(e)
    ensures HasCall(e) <==> order.patient.phone != ""
  {
    if order.patient.phone != "" then
      var e := [Banner("Calling " + order.patient.name + "..."), PlaceCall(order.patient.phone, order.patient.name)];
      assert e[1] in e;
      e
    else []
  }

  function OnPreparing(orderId: string, newStatus: OrderStatus, orders: seq<PharmacyOrder>,
                       inventory: seq<InventoryItem>, origin: string): (e: seq<Effect>)
    ensures !HasCall(e)
    ensures HasSms(e) <==> newStatus == Preparing && FindOrder(orders, orderId).Some?
                           && FindOrder(orders, orderId).value.patient.phone != ""
    ensures forall x :: x in e && x.SendSms? ==>
      x == SendSms(FindOrder(orders, orderId).value.patient.phone,
                   FindOrder(orders, orderId).value.patient.name, orderId, TrackingUrl(origin, orderId))
  {
    if newStatus == Preparing then
      match FindOrder(orders, orderId)
      case Some(order) => AcceptedEffects(order, orderId, inventory, origin)
      case None => []
    else []
  }

  function OnReady(orderId: string, newStatus: OrderStatus, orders: seq<PharmacyOrder>): (e: seq<Effect>)
    ensures !HasSms(e) && !HasStockWrite(e)
    ensures HasCall(e) <==> newStatus == Ready && FindOrder(orders, orderId).Some?
                            && FindOrder(orders, orderId).value.patient.phone != ""
    ensures forall x :: x in e && x.PlaceCall? ==>
      x == PlaceCall(FindOrder(orders, orderId).value.patient.phone,
                     FindOrder(orders, orderId).value.patient.name)
  {
    if newStatus == Ready then
      match FindOrder(orders, orderId)
      case Some(order) =>
        var e := ReadyEffects(order);
        assert forall x :: x in e ==> x in [Banner("Calling " + order.patient.name + "..."),
                                            PlaceCall(order.patient.phone, order.patient.name)];
        e
      case None => []
    else []
  }

  /** The effects of `updateOrderStatus(orderId, newStatus)`, given the
      outcome of the status write and the local order list, inventory
      snapshot and page origin. */
  function StatusEffects(
    orderId: string, newStatus: OrderStatus, writeError: Option<string>,
    orders: seq<PharmacyOrder>, inventory: seq<InventoryItem>, origin: string): (e: seq<Effect>)
    ensures 2 <= |e| && e[0] == WriteOrderStatus(orderId, newStatus)
    ensures writeError.Some? ==> e == [e[0], Alert("Failed to update: " + writeError.value)]
    ensures writeError.None? <==> e[|e| - 1] == RefetchOrders
  {
    [WriteOrderStatus(orderId, newStatus)] +
    match writeError
    case Some(message) => [Alert("Failed to update: " + message)]
    case None =>
      OnPreparing(orderId, newStatus, orders, inventory, origin) + OnReady(orderId, newStatus, orders)
      + [RefetchOrders]
  }

  /** A failed status write only raises an alert: no stock write, no
      notification and no re-fetch of the orders. */
  lemma FailedWriteHalts(
    orderId: string, newStatus: OrderStatus, message: string,
    orders: seq<PharmacyOrder>, inventory: seq<InventoryItem>, origin: string)
    ensures var e := StatusEffects(orderId, newStatus, Some(message), orders, inventory, origin);
      && !HasStockWrite(e) && !HasSms(e) && !HasCall(e)
      && RefetchOrders !in e && RefetchInventory !in e
  {
  }

  /** Stock is written only after a successful write of `Preparing` for an
      order found in the local list, and then the writes are exactly the
      stock rule's writes for that order's medicines, in order. */
  lemma StockWritesOnlyOnAccept(
    orderId: string, newStatus: OrderStatus, writeError: Option<string>,
    orders: seq<PharmacyOrder>, inventory: seq<InventoryItem>, origin: string)
    ensures var e := StatusEffects(orderId, newStatus, writeError, orders, inventory, origin);
      StockWritesOf(e) ==
        if writeError.None? && newStatus == Preparing && FindOrder(orders, orderId).Some?
        then StockWrites(FindOrder(orders, orderId).value.medicines, inventory)
        else []
  {
    var e := StatusEffects(orderId, newStatus, writeError, orders, inventory, origin);
    var found := FindOrder(orders, orderId);
    if writeError.None? {
      var pre := OnPreparing(orderId, newStatus, orders, inventory, origin);
      var post := OnReady(orderId, newStatus, orders) + [RefetchOrders];
      assert e == [e[0]] + (pre + post);
      NoStockWritesOf([e[0]]);
      NoStockWritesOf(post);
      StockWritesOfAppend([e[0]], pre + post);
      StockWritesOfAppend(pre, post);
      if newStatus == Preparing && found.Some? {
        AcceptedStockWrites(found.value, orderId, inventory, origin);
      }
    } else {
      NoStockWritesOf(e);
    }
  }

  /** After a successful write every effect is the write, an effect of the
      `Preparing` or `Ready` branch, or the re-fetch; after a failed write
      it is the write or the alert. */
  lemma SuccessMembers(
    orderId: string, newStatus: OrderStatus, writeError: Option<string>,
    orders: seq<PharmacyOrder>, inventory: seq<InventoryItem>, origin: string)
    ensures var e := StatusEffects(orderId, newStatus, writeError, orders, inventory, origin);
      forall x :: x in e <==>
        if writeError.None? then
          x == WriteOrderStatus(orderId, newStatus) || x in OnPreparing(orderId, newStatus, orders, inventory, origin)
          || x in OnReady(orderId, newStatus, orders) || x == RefetchOrders
        else x == WriteOrderStatus(orderId, newStatus) || x == Alert("Failed to update: " + writeError.value)
  {
    var e := StatusEffects(orderId, newStatus, writeError, orders, inventory, origin);
    if writeError.None? {
      assert e == [e[0]] + OnPreparing(orderId, newStatus, orders, inventory, origin)
        + OnReady(orderId, newStatus, orders) + [RefetchOrders];
    }
  }

  /** An SMS goes out exactly when `Preparing` was written successfully for
      an order in the local list whose patient has a phone number; it goes
      to that patient and links to the order's public page. */
  lemma SmsOnlyOnAccept(
    orderId: string, newStatus: OrderStatus, writeError: Option<string>,
    orders: seq<PharmacyOrder>, inventory: seq<InventoryItem>, origin: string)
    ensures var e := StatusEffects(orderId, newStatus, writeError, orders, inventory, origin);
      var found := FindOrder(orders, orderId);
      && (HasSms(e) <==>
           writeError.None? && newStatus == Preparing && found.Some? && found.value.patient.phone != "")
      && (forall x :: x in e && x.SendSms? ==>
           x == SendSms(found.value.patient.phone, found.value.patient.name, orderId,
                        origin + "/order/" + orderId))
  {
    SuccessMembers(orderId, newStatus, writeError, orders, inventory, origin);
  }

  /** A voice call is placed exactly when `Ready` was written successfully
      for an order in the local list whose patient has a phone number. */
  lemma CallOnlyOnReady(
    orderId: string, newStatus: OrderStatus, writeError: Option<string>,
    orders: seq<PharmacyOrder>, inventory: seq<InventoryItem>, origin: string)
    ensures var e := StatusEffects(orderId, newStatus, writeError, orders, inventory, origin);
      var found := FindOrder(orders, orderId);
      && (HasCall(e) <==>
           writeError.None? && newStatus == Ready && found.Some? && found.value.patient.phone != "")
      && (forall x :: x in e && x.PlaceCall? ==>
           x == PlaceCall(found.value.patient.phone, found.value.patient.name))
  {
    SuccessMembers(orderId, newStatus, writeError, orders, inventory, origin);
  }

  /** The only alert is the failed write's: a successful write raises no
      alert, whatever the status and the order. */
  lemma {:induction false} AlertOnlyOnFailure(
    orderId: string, newStatus: OrderStatus, writeError: Option<string>,
    orders: seq<PharmacyOrder>, inventory: seq<InventoryItem>, origin: string)
    ensures writeError.Some? ==>
      Alert("Failed to update: " + writeError.value) in StatusEffects(orderId, newStatus, writeError, orders, inventory, origin)
    ensures writeError.None? ==>
      forall x :: x in StatusEffects(orderId, newStatus, writeError, orders, inventory, origin) ==> !x.Alert?
  {
    var e := StatusEffects(orderId, newStatus, writeError, orders, inventory, origin);
    if writeError.Some? {
      assert e[1] == Alert("Failed to update: " + writeError.value);
    } else {
      SuccessMembers(orderId, newStatus, writeError, orders, inventory, origin);
      NoAlertInBranches(orderId, newStatus, orders, inventory, origin);
    }
  }

  /** Neither the `Preparing` branch nor the `Ready` branch raises an alert. */
  lemma NoAlertInBranches(orderId: string, newStatus: OrderStatus,
                          orders: seq<PharmacyOrder>, inventory: seq<InventoryItem>, origin: string)
    ensures forall x :: x in OnPreparing(orderId, newStatus, orders, inventory, origin) ==> !x.Alert?
    ensures forall x :: x in OnReady(orderId, newStatus, orders) ==> !x.Alert?
  {
    match FindOrder(orders, orderId)
    case None =>
      assert OnPreparing(orderId, newStatus, orders, inventory, origin) == [];
      assert OnReady(orderId, newStatus, orders) == [];
    case Some(o) =>
      if newStatus == Preparing {
        assert OnPreparing(orderId, newStatus, orders, inventory, origin) == AcceptedEffects(o, orderId, inventory, origin);
        NoAlertWhenAccepting(o, orderId, inventory, origin);
      } else if newStatus == Ready {
        assert OnReady(orderId, newStatus, orders) == ReadyEffects(o);
        assert forall x :: x in ReadyEffects(o) ==> !x.Alert?;
      }
  }

  /** Accepting an order raises no alert: its effects are stock writes,
      the inventory re-fetch, a banner and an SMS. */
  lemma NoAlertWhenAccepting(order: PharmacyOrder, orderId: string, inventory: seq<InventoryItem>, origin: string)
    ensures forall x :: x in AcceptedEffects(order, orderId, inventory, origin) ==> !x.Alert?
  {
    var ws := WriteStockEffects(StockWrites(order.medicines, inventory));
    var notes := AcceptNotifications(order, orderId, origin);
    assert AcceptedEffects(order, orderId, inventory, origin) == ws + ([RefetchInventory] + notes);
    assert forall x :: x in ws ==> x.WriteStock?;
    assert forall x :: x in notes ==> x.Banner? || x.SendSms?;
  }

  /** `Pending` and `Rejected` cause nothing but the write and a re-fetch. */
  lemma QuietStatuses(
    orderId: string, newStatus: OrderStatus,
    orders: seq<PharmacyOrder>, inventory: seq<InventoryItem>, origin: string)
    requires newStatus == Pending || newStatus == Rejected
    ensures StatusEffects(orderId, newStatus, None, orders, inventory, origin)
      == [WriteOrderStatus(orderId, newStatus), RefetchOrders]
  {
  }

  /** Accepting an order found in the local list, end to end: performing
      the stock writes among the effects on the snapshot takes five units,
      floored at zero, from each item some medicine matched, once, and
      leaves every other item as it was. */
  lemma AcceptingOrderInventory(
    orderId: string, order: PharmacyOrder,
    orders: seq<PharmacyOrder>, inventory: seq<InventoryItem>, origin: string)
    requires FindOrder(orders, orderId) == Some(order)
    requires UniqueIds(inventory)
    ensures var after := ApplyWrites(inventory,
      StockWritesOf(StatusEffects(orderId, Preparing, None, orders, inventory, origin)));
      && |after| == |inventory|
      && forall j :: 0 <= j < |inventory| ==>
           after[j] == if MatchedBy(order.medicines, inventory, j)
                       then inventory[j].(stock := Decremented(inventory[j].stock))
                       else inventory[j]
  {
    StockWritesOnlyOnAccept(orderId, Preparing, None, orders, inventory, origin);
    AcceptedInventory(inventory, order.medicines);
  }

  /** The inventory is re-fetched exactly after a successful `Preparing`
      write for an order in the local list. */
  lemma {:induction false} InventoryRefetchOnlyOnAccept(
    orderId: string, newStatus: OrderStatus, writeError: Option<string>,
    orders: seq<PharmacyOrder>, inventory: seq<InventoryItem>, origin: string)
    ensures RefetchInventory in StatusEffects(orderId, newStatus, writeError, orders, inventory, origin)
      <==> writeError.None? && newStatus == Preparing && FindOrder(orders, orderId).Some?
  {
    SuccessMembers(orderId, newStatus, writeError, orders, inventory, origin);
    var accepting := newStatus == Preparing && FindOrder(orders, orderId).Some?;
    if accepting {
      var order := FindOrder(orders, orderId).value;
      AcceptedEffectsOrder(order, orderId, inventory, origin);
      var n := |StockWrites(order.medicines, inventory)|;
      assert OnPreparing(orderId, newStatus, orders, inventory, origin)[n] == RefetchInventory;
    } else {
      assert OnPreparing(orderId, newStatus, orders, inventory, origin) == [];
      if newStatus == Ready && FindOrder(orders, orderId).Some? {
        assert RefetchInventory !in ReadyEffects(FindOrder(orders, orderId).value);
      }
    }
  }
}

=== FILE: stock_rule.dfy ===
/** The stock-decrement rule applied when a pharmacist accepts an order
    (status `Preparing`): each medicine on the order is matched against the
    local inventory snapshot, and the matched item's stock is written as
    five units less, floored at zero. */
module StockRule {
  import opened Wrappers
  import opened Types
  import opened Text
  import opened InventoryTable
  import opened Effects

  /** Units taken from stock per matched medicine, whatever the dosage. */
  const UnitsPerMedicine: int := 5

  /** An inventory item matches a medicine when the item's lowercased name
      occurs inside the medicine's lowercased name (not the reverse). */
  predicate ItemMatches(item: InventoryItem, medicineName: string)
    ensures ItemMatches(item, medicineName) <==>
      exists i :: OccursAt(ToLower(medicineName), ToLower(item.name), i)
  {
    Includes(ToLower(medicineName), ToLower(item.name))
  }

  /** The match ignores case on both sides: lowercasing the item name or
      the medicine name beforehand changes nothing. */
  lemma {:induction false} MatchIgnoresCase(item: InventoryItem, medicineName: string)
    ensures ItemMatches(item, medicineName) <==>
      ItemMatches(item.(name := ToLower(item.name)), ToLower(medicineName))
  {
    ToLowerIdempotent(item.name);
    ToLowerIdempotent(medicineName);
  }

  /** Lowercasing just one of the two names beforehand changes nothing
      either. */
  lemma {:induction false} MatchIgnoresCaseOneSide(item: InventoryItem, medicineName: string)
    ensures ItemMatches(item, medicineName) <==> ItemMatches(item.(name := ToLower(item.name)), medicineName)
    ensures ItemMatches(item, medicineName) <==> ItemMatches(item, ToLower(medicineName))
  {
    ToLowerIdempotent(item.name);
    ToLowerIdempotent(medicineName);
  }

  /** `inventory.find(...)`: the position of the first matching item. */
  function FirstMatch(inventory: seq<InventoryItem>, medicineName: string): (r: Option<nat>)
    ensures r.Some? ==> r.value < |inventory| && ItemMatches(inventory[r.value], medicineName)
    ensures r.Some? ==> forall j :: 0 <= j < r.value ==> !ItemMatches(inventory[j], medicineName)
    ensures r.None? <==> forall j :: 0 <= j < |inventory| ==> !ItemMatches(inventory[j], medicineName)
  {
    if |inventory| == 0 then None
    else if ItemMatches(inventory[0], medicineName) then Some(0)
    else
      match FirstMatch(inventory[1..], medicineName)
      case None => None
      case Some(k) => Some(k + 1)
  }

  /** An inventory name longer than the medicine name never matches it. */
  lemma LongerNameNeverMatches(item: InventoryItem, medicineName: string)
    requires |item.name| > |medicineName|
    ensures !ItemMatches(item, medicineName)
  {
  }

  /** `Math.max(0, stock - 5)`. */
  function Decremented(stock: int): (r: int)
    ensures 0 <= r
    ensures 0 <= stock ==> r <= stock
    ensures UnitsPerMedicine <= stock ==> stock - r == UnitsPerMedicine
    ensures stock <= UnitsPerMedicine ==> r == 0
  {
    if stock - UnitsPerMedicine > 0 then stock - UnitsPerMedicine else 0
  }

  /** The write one medicine causes: none exactly when no item matches,
      otherwise a non-negative stock computed from a snapshot item and
      written to the first matching item. */
  function WriteFor(med: Medicine, inventory: seq<InventoryItem>): (w: Option<StockWrite>)
    ensures w.None? <==> FirstMatch(inventory, med.name).None?
    ensures w.Some? ==> 0 <= w.value.stock && FromSnapshot(w.value, inventory)
    ensures w.Some? ==> w.value.itemId == inventory[FirstMatch(inventory, med.name).value].id
  {
    match FirstMatch(inventory, med.name)
    case None => None
    case Some(k) =>
      var w := StockWrite(inventory[k].id, Decremented(inventory[k].stock));
      assert inventory[k].id == w.itemId;
      Some(w)
  }

  /** `w` writes some snapshot item's decremented stock to that item. */
  ghost predicate FromSnapshot(w: StockWrite, inventory: seq<InventoryItem>) {
    exists k :: 0 <= k < |inventory| && inventory[k].id == w.itemId && w.stock == Decremented(inventory[k].stock)
  }

  /** The stock writes issued for an order's medicines, in medicine order,
      every one computed from the same snapshot `inventory`. */
  function StockWrites(meds: seq<Medicine>, inventory: seq<InventoryItem>): (ws: seq<StockWrite>)
    ensures |ws| <= |meds|
    ensures forall w :: w in ws ==> 0 <= w.stock && FromSnapshot(w, inventory)
  {
    if |meds| == 0 then []
    else
      var rest := StockWrites(meds[1..], inventory);
      match WriteFor(meds[0], inventory)
      case None => rest
      case Some(w) => [w] + rest
  }

  /** No medicine of the order has a matching inventory item. */
  ghost predicate NoMedicineMatches(meds: seq<Medicine>, inventory: seq<InventoryItem>) {
    forall i :: 0 <= i < |meds| ==> FirstMatch(inventory, meds[i].name).None?
  }

  /** An order causes no stock write exactly when none of its medicines
      matches an inventory item. */
  lemma {:induction false} NoWritesIffNoMatch(meds: seq<Medicine>, inventory: seq<InventoryItem>)
    ensures StockWrites(meds, inventory) == [] <==> NoMedicineMatches(meds, inventory)
    decreases |meds|
  {
    if |meds| > 0 {
      NoWritesIffNoMatch(meds[1..], inventory);
      assert forall i :: 1 <= i < |meds| ==> meds[i] == meds[1..][i - 1];
    }
  }

  /** Performs stock writes one after another on the table's rows. */
  function ApplyWrites(rows: seq<InventoryItem>, ws: seq<StockWrite>): (r: seq<InventoryItem>)
    ensures |r| == |rows|
    ensures forall j :: 0 <= j < |rows| ==> r[j] == rows[j].(stock := r[j].stock)
    decreases |ws|
  {
    if |ws| == 0 then rows
    else ApplyWrites(UpdateById(rows, ws[0].itemId, StockPatch(ws[0].stock)), ws[1..])
  }

  lemma ApplyWritesCons(rows: seq<InventoryItem>, w: StockWrite, ws: seq<StockWrite>)
    ensures ApplyWrites(rows, [w] + ws) == ApplyWrites(UpdateById(rows, w.itemId, StockPatch(w.stock)), ws)
  {
    assert ([w] + ws)[0] == w && ([w] + ws)[1..] == ws;
  }

  /** Item `j` of the snapshot is the first match of some medicine. */
  ghost predicate MatchedBy(meds: seq<Medicine>, inventory: seq<InventoryItem>, j: int) {
    exists i :: 0 <= i < |meds| && FirstMatch(inventory, meds[i].name) == Some(j)
  }

  /** An item is matched by `meds` exactly when it is the first match of
      `meds[0]` or is matched by `meds[1..]`. */
  lemma MatchedByCons(meds: seq<Medicine>, inventory: seq<InventoryItem>)
    requires |meds| > 0
    ensures forall j :: MatchedBy(meds, inventory, j) <==>
      (FirstMatch(inventory, meds[0].name) == Some(j) || MatchedBy(meds[1..], inventory, j))
  {
    var rest := meds[1..];
    forall j ensures MatchedBy(meds, inventory, j) <==>
      (FirstMatch(inventory, meds[0].name) == Some(j) || MatchedBy(rest, inventory, j))
    {
      if MatchedBy(rest, inventory, j) {
        var i :| 0 <= i < |rest| && FirstMatch(inventory, rest[i].name) == Some(j);
        assert meds[i + 1] == rest[i];
      }
      if MatchedBy(meds, inventory, j) {
        var i :| 0 <= i < |meds| && FirstMatch(inventory, meds[i].name) == Some(j);
        if i > 0 {
          assert rest[i - 1] == meds[i];
        }
      }
    }
  }

  lemma StockWritesCons(meds: seq<Medicine>, inventory: seq<InventoryItem>)
    requires |meds| > 0
    ensures StockWrites(meds, inventory) ==
      match WriteFor(meds[0], inventory)
      case None => StockWrites(meds[1..], inventory)
      case Some(w) => [w] + StockWrites(meds[1..], inventory)
  {
  }

  lemma SameIdsUnique(snapshot: seq<InventoryItem>, rows: seq<InventoryItem>)
    requires UniqueIds(snapshot)
    requires |rows| == |snapshot|
    requires forall j :: 0 <= j < |rows| ==> rows[j].id == snapshot[j].id
    ensures UniqueIds(rows)
  {
    forall i, j | 0 <= i < j < |rows| ensures rows[i].id != rows[j].id {
      assert rows[i].id == snapshot[i].id && rows[j].id == snapshot[j].id;
    }
  }

  /** The stock writes for `meds`, applied to rows whose ids are those of
      the snapshot, patch each matched row once with the snapshot value and
      leave every other row as it was. */
  lemma {:induction false} ApplyStockWritesFrom(
    snapshot: seq<InventoryItem>, rows: seq<InventoryItem>, meds: seq<Medicine>)
    requires UniqueIds(snapshot)
    requires |rows| == |snapshot|
    requires forall j :: 0 <= j < |rows| ==> rows[j].id == snapshot[j].id
    ensures forall j :: 0 <= j < |rows| ==>
      ApplyWrites(rows, StockWrites(meds, snapshot))[j] ==
        if MatchedBy(meds, snapshot, j) then rows[j].(stock := Decremented(snapshot[j].stock))
        else rows[j]
    decreases |meds|
  {
    if |meds| == 0 {
      assert StockWrites(meds, snapshot) == [];
    } else {
      var rest := meds[1..];
      var restWs := StockWrites(rest, snapshot);
      MatchedByCons(meds, snapshot);
      StockWritesCons(meds, snapshot);
      match FirstMatch(snapshot, meds[0].name)
      case None =>
        ApplyStockWritesFrom(snapshot, rows, rest);
      case Some(k) =>
        var w := StockWrite(snapshot[k].id, Decremented(snapshot[k].stock));
        var rows' := rows[k := rows[k].(stock := w.stock)];
        SameIdsUnique(snapshot, rows);
        UpdateExistingRow(rows, k, StockPatch(w.stock));
        ApplyWritesCons(rows, w, restWs);
        ApplyStockWritesFrom(snapshot, rows', rest);
    }
  }

  /** Accepting an order: starting from the snapshot itself, every item
      matched by at least one medicine ends at `max(0, stock - 5)` however
      many medicines matched it, every other item keeps its stock, and no
      field but `stock` changes. */
  lemma {:induction false} AcceptedInventory(snapshot: seq<InventoryItem>, meds: seq<Medicine>)
    requires UniqueIds(snapshot)
    ensures |ApplyWrites(snapshot, StockWrites(meds, snapshot))| == |snapshot|
    ensures forall j :: 0 <= j < |snapshot| ==>
      ApplyWrites(snapshot, StockWrites(meds, snapshot))[j] ==
        if MatchedBy(meds, snapshot, j) then snapshot[j].(stock := Decremented(snapshot[j].stock))
        else snapshot[j]
  {
    ApplyStockWritesFrom(snapshot, snapshot, meds);
  }

  /** No stock goes negative, and none grows, when the snapshot's stocks
      are non-negative. */
  lemma {:induction false} AcceptedStockBounds(snapshot: seq<InventoryItem>, meds: seq<Medicine>)
    requires UniqueIds(snapshot)
    requires forall j :: 0 <= j < |snapshot| ==> 0 <= snapshot[j].stock
    ensures forall j :: 0 <= j < |snapshot| ==>
      0 <= ApplyWrites(snapshot, StockWrites(meds, snapshot))[j].stock <= snapshot[j].stock
  {
    AcceptedInventory(snapshot, meds);
  }

  /** Two medicines hitting the same item take five units once, not ten. */
  lemma {:induction false} RepeatedMatchDecrementsOnce(
    snapshot: seq<InventoryItem>, meds: seq<Medicine>, j: nat, a: nat, b: nat)
    requires UniqueIds(snapshot)
    requires a < b < |meds| && j < |snapshot|
    requires FirstMatch(snapshot, meds[a].name) == Some(j)
    requires FirstMatch(snapshot, meds[b].name) == Some(j)
    requires 2 * UnitsPerMedicine <= snapshot[j].stock
    ensures ApplyWrites(snapshot, StockWrites(meds, snapshot))[j].stock
      == snapshot[j].stock - UnitsPerMedicine
  {
    AcceptedInventory(snapshot, meds);
    assert MatchedBy(meds, snapshot, j);
  }

  /** A medicine that no inventory name occurs in causes no write; if no
      medicine matches, the inventory is left exactly as it was. */
  lemma UnmatchedOrderLeavesInventory(snapshot: seq<InventoryItem>, meds: seq<Medicine>)
    requires forall i, j :: 0 <= i < |meds| && 0 <= j < |snapshot| ==> !ItemMatches(snapshot[j], meds[i].name)
    ensures StockWrites(meds, snapshot) == []
    ensures ApplyWrites(snapshot, StockWrites(meds, snapshot)) == snapshot
  {
    assert forall i :: 0 <= i < |meds| ==> FirstMatch(snapshot, meds[i].name).None?;
    NoWritesIffNoMatch(meds, snapshot);
  }
}

=== FILE: text.dfy ===
/** The string operations the application relies on: `toLowerCase`,
    `includes`, `startsWith`, `split(c)[0]`, `split('/').pop()` and the
    decimal rendering of a number inside a template string. */
module Text {

  predicate IsUpper(c: char) {
    'A' <= c <= 'Z'
  }

  /** An upper-case letter becomes the lower-case letter of the same
      place in the alphabet; every other character is left alone. */
  function LowerChar(c: char): (d: char)
    ensures !IsUpper(d)
    ensures !IsUpper(c) ==> d == c
    ensures IsUpper(c) ==> 'a' <= d <= 'z' && d as int - 'a' as int == c as int - 'A' as int
  {
    if IsUpper(c) then (c as int + 32) as char else c
  }

  /** `toLowerCase`, restricted to the ASCII letters. */
  function ToLower(s: string): (r: string)
    ensures |r| == |s|
    ensures forall i :: 0 <= i < |s| && !IsUpper(s[i]) ==> r[i] == s[i]
    ensures forall i :: 0 <= i < |s| && IsUpper(s[i]) ==>
      'a' <= r[i] <= 'z' && r[i] as int - 'a' as int == s[i] as int - 'A' as int
    ensures forall i :: 0 <= i < |s| ==> !IsUpper(r[i])
  {
    seq(|s|, i requires 0 <= i < |s| => LowerChar(s[i]))
  }

  /** Lowercasing twice is lowercasing once. */
  lemma ToLowerIdempotent(s: string)
    ensures ToLower(ToLower(s)) == ToLower(s)
  {
  }

  /** `needle` occurs in `hay` starting at position `i`. */
  ghost predicate OccursAt(hay: string, needle: string, i: int) {
    0 <= i && i + |needle| <= |hay| && hay[i..i + |needle|] == needle
  }

  lemma OccursShift(hay: string, needle: string)
    requires |hay| > 0
    ensures forall i :: 0 <= i ==> (OccursAt(hay[1..], needle, i) <==> OccursAt(hay, needle, i + 1))
  {
    forall i | 0 <= i
      ensures OccursAt(hay[1..], needle, i) <==> OccursAt(hay, needle, i + 1)
    {
      if 0 <= i && i + |needle| <= |hay| - 1 {
        assert hay[1..][i..i + |needle|] == hay[i + 1..i + 1 + |needle|];
      }
    }
  }

  /** `hay.includes(needle)`: some position of `hay` starts a copy of
      `needle` (so the empty needle is included in every string). */
  function Includes(hay: string, needle: string): (b: bool)
    ensures b <==> exists i :: OccursAt(hay, needle, i)
    decreases |hay|
  {
    if |needle| > |hay| then false
    else if hay[..|needle|] == needle then assert OccursAt(hay, needle, 0); true
    else
      OccursShift(hay, needle);
      assert !OccursAt(hay, needle, 0);
      assert forall i :: OccursAt(hay, needle, i) ==> i == 0 || OccursAt(hay[1..], needle, i - 1);
      Includes(hay[1..], needle)
  }

  /** `s.startsWith(prefix)`: `s` is `prefix` followed by the rest of `s`. */
  predicate StartsWith(s: string, prefix: string)
    ensures StartsWith(s, prefix) <==> |prefix| <= |s| && s == prefix + s[|prefix|..]
  {
    |prefix| <= |s| && s[..|prefix|] == prefix
  }

  /** `s.split(c)[0]`: the text before the first `c`, or all of `s`. */
  function BeforeFirst(s: string, c: char): (r: string)
    ensures c !in r
    ensures |r| <= |s| && s[..|r|] == r
    ensures |r| == |s| || s[|r|] == c
  {
    if |s| == 0 then ""
    else if s[0] == c then ""
    else [s[0]] + BeforeFirst(s[1..], c)
  }

  /** The text before the first `c` is everything up to that occurrence. */
  lemma BeforeFirstAt(s: string, c: char, k: nat)
    requires k < |s| && s[k] == c
    requires c !in s[..k]
    ensures BeforeFirst(s, c) == s[..k]
  {
  }

  /** `s.split('/').pop()`: the text after the last `/`, or all of `s`. */
  function LastSegment(s: string): (r: string)
    ensures '/' !in r
    ensures |r| <= |s| && s[|s| - |r|..] == r
    ensures |r| == |s| || s[|s| - |r| - 1] == '/'
  {
    if |s| == 0 then ""
    else if s[|s| - 1] == '/' then ""
    else LastSegment(s[..|s| - 1]) + [s[|s| - 1]]
  }

  /** Whatever precedes the last `/`, the last segment is what follows it. */
  lemma {:induction false} LastSegmentAfterSlash(prefix: string, segment: string)
    requires '/' !in segment
    ensures LastSegment(prefix + "/" + segment) == segment
    decreases |segment|
  {
    var s := prefix + "/" + segment;
    if |segment| == 0 {
      assert s[|s| - 1] == '/';
    } else {
      var init := segment[..|segment| - 1];
      assert s[..|s| - 1] == prefix + "/" + init;
      assert s[|s| - 1] == segment[|segment| - 1];
      assert '/' !in init by {
        forall k | 0 <= k < |init| ensures init[k] != '/' {
          assert init[k] == segment[k];
        }
      }
      LastSegmentAfterSlash(prefix, init);
      assert init + [segment[|segment| - 1]] == segment;
    }
  }

  predicate IsDigit(c: char) {
    '0' <= c <= '9'
  }

  predicate AllDigits(s: string) {
    forall i :: 0 <= i < |s| ==> IsDigit(s[i])
  }

  function DigitChar(d: nat): (c: char)
    requires d < 10
    ensures IsDigit(c)
  {
    ('0' as int + d) as char
  }

  /** The decimal rendering of `n`, as `${n}` produces it. */
  function NatToDecimal(n: nat): (s: string)
    ensures 1 <= |s|
    ensures AllDigits(s)
    ensures n < 10 <==> |s| == 1
  {
    if n < 10 then [DigitChar(n)]
    else NatToDecimal(n / 10) + [DigitChar(n % 10)]
  }

  /** Reads a string of decimal digits back as a number. */
  function DecimalToNat(s: string): nat
    requires AllDigits(s)
  {
    if |s| == 0 then 0
    else DecimalToNat(s[..|s| - 1]) * 10 + (s[|s| - 1] as int - '0' as int)
  }

  lemma {:induction false} DecimalRoundTrip(n: nat)
    ensures DecimalToNat(NatToDecimal(n)) == n
  {
    var s := NatToDecimal(n);
    if n >= 10 {
      DecimalRoundTrip(n / 10);
      assert s[..|s| - 1] == NatToDecimal(n / 10);
    }
  }

  /** Every number from 1000 to 9999 is written with exactly four digits. */
  lemma FourDigits(n: nat)
    requires 1000 <= n <= 9999
    ensures |NatToDecimal(n)| == 4
  {
    var n1, n2, n3 := n / 10, n / 10 / 10, n / 10 / 10 / 10;
    assert 100 <= n1 <= 999 && 10 <= n2 <= 99 && 1 <= n3 <= 9;
    assert |NatToDecimal(n3)| == 1;
    assert |NatToDecimal(n2)| == 2;
    assert |NatToDecimal(n1)| == 3;
  }
}

=== FILE: types.dfy ===
/** The record types of the application (types.ts), as immutable datatypes. */
module Types {
  import opened Wrappers

  datatype Medicine = Medicine(name: string, dosage: string, duration: string, instruction: string)

  datatype Gender = Male | Female | Other

  datatype Patient = Patient(
    id: string,
    name: string,
    age: int,
    gender: Gender,
    bloodGroup: string,
    phone: string)

  datatype OrderStatus = Pending | Preparing | Ready | Rejected

  datatype PharmacyOrder = PharmacyOrder(
    id: string,
    patient: Patient,
    medicines: seq<Medicine>,
    status: OrderStatus,
    timestamp: string,
    prepTimeMinutes: int,
    doctorName: string,
    rejectionReason: Option<string>)

  datatype InventoryItem = InventoryItem(
    id: string,
    name: string,
    stock: int,
    maxStock: int,
    minThreshold: int,
    category: string,
    lastRestocked: string)

  /** The inventory table is keyed by `id`: no two rows share one. */
  ghost predicate UniqueIds(rows: seq<InventoryItem>) {
    forall i, j :: 0 <= i < j < |rows| ==> rows[i].id != rows[j].id
  }
}

=== FILE: witnesses.dfy ===
/** Concrete instances of the rules on the application's mock data
    (constants.ts). */
module Witnesses {
  import opened Wrappers
  import opened Types
  import opened Text
  import opened StockRule
  import opened Restock
  import opened Routing

  const MockInventory: seq<InventoryItem> := [
    InventoryItem("INV-001", "Paracetamol (500mg)", 450, 1000, 200, "Analgesic", "2023-10-12"),
    InventoryItem("INV-002", "Amoxicillin (250mg)", 45, 500, 100, "Antibiotic", "2023-10-10"),
    InventoryItem("INV-003", "Metformin (500mg)", 620, 800, 150, "Antidiabetic", "2023-10-15"),
    InventoryItem("INV-004", "Cetirizine (10mg)", 12, 300, 50, "Antihistamine", "2023-09-28"),
    InventoryItem("INV-005", "Omeprazole (20mg)", 210, 400, 80, "Antacid", "2023-10-01"),
    InventoryItem("INV-006", "Pantoprazole (40mg)", 35, 500, 100, "Antacid", "2023-10-05"),
    InventoryItem("INV-007", "Telmisartan (40mg)", 180, 600, 120, "Hypertension", "2023-10-08")
  ]

  lemma MockInventoryKeyed()
    ensures UniqueIds(MockInventory)
  {
  }

  /** A line item named exactly like an inventory item matches it. */
  lemma FullNameMatches()
    ensures FirstMatch(MockInventory, "Paracetamol (500mg)") == Some(0)
  {
    assert OccursAt(ToLower("Paracetamol (500mg)"), ToLower(MockInventory[0].name), 0);
  }

  /** Case does not matter: an upper-case line item matches too. */
  lemma UpperCaseNameMatches()
    ensures FirstMatch(MockInventory, "PARACETAMOL (500MG)") == Some(0)
  {
    assert ToLower("PARACETAMOL (500MG)") == ToLower(MockInventory[0].name);
    assert OccursAt(ToLower("PARACETAMOL (500MG)"), ToLower(MockInventory[0].name), 0);
  }

  /** A bare "Paracetamol" line item matches nothing: the inventory name
      must occur inside the medicine name, and every mock inventory name
      is longer than "Paracetamol". */
  lemma BareNameDoesNotMatch()
    ensures FirstMatch(MockInventory, "Paracetamol") == None
  {
    var inv := MockInventory;
    forall j | 0 <= j < |inv|
      ensures !ItemMatches(inv[j], "Paracetamol")
    {
      assert 17 <= |inv[j].name|;
      LongerNameNeverMatches(inv[j], "Paracetamol");
    }
  }

  /** The date part of an ISO timestamp, as written to `last_restocked`. */
  lemma IsoDatePart()
    ensures RestockDate("2024-05-01T09:30:00.000Z") == "2024-05-01"
  {
    var iso := "2024-05-01T09:30:00.000Z";
    assert iso[..10] == "2024-05-01";
    BeforeFirstAt(iso, 'T', 10);
  }

  /** Restocking INV-004 to its maximum of 300 on 2024-05-01. */
  lemma RestockCetirizine()
    ensures var after := ApplyRestock(MockInventory, "INV-004", 300, "2024-05-01");
      && after[3].stock == 300 && after[3].lastRestocked == "2024-05-01"
      && after[0] == MockInventory[0]
  {
    MockInventoryKeyed();
    assert MockInventory[3].id == "INV-004";
    RestockChangesOnlyTarget(MockInventory, 3, 300, "2024-05-01");
  }

  /** The public page of ORD-5501 opens without signing in. */
  lemma PublicOrderPage()
    ensures ScreenFor("/order/ORD-5501", InitialState) == OrderView("ORD-5501")
  {
    TrackingPathOpensOrder("ORD-5501", InitialState);
  }
}

=== FILE: wrappers.dfy ===
/** The optional-value datatype used for the source's `T | null`,
    `T | undefined` and `{ error }` results. */
module Wrappers {

  datatype Option<+T> = None | Some(value: T)
}
